=== FILE: README.md ===
# ChangeToDebug text rewrites, in Dafny

ChangeToDebug switches an HP/Intel firmware source tree into a debug build by
editing files in place. Every edit reads a whole file, rewrites the text and
writes it back. This project models those rewrites as pure functions from old
contents to new contents and proves what they do:

- **`Replace`** — Python's `str.replace(old, new)`: a left-to-right scan that
  replaces non-overlapping occurrences (an empty pattern matches before every
  character and at the end, so `"abc".replace("", "X")` is `"XaXbXcX"`). Proved: for a replacement different from the
  pattern, the text is unchanged exactly when the pattern is absent; the
  first occurrence is the one replaced; and, under a stated
  condition on the two literals, no occurrence of the pattern survives and
  none is formed across the edges of an inserted replacement.
- **`Rewrites`** — the three uses of `str.replace`: the
  `PcdHpMemoryDebugEnable` flag in `PlatformPcdConfig.dsc` goes from `FALSE`
  to `TRUE`, `IsLegacySupported()` in `DxeMemDebugAcpiArea.c` becomes `0`,
  and `DEBUG_WARN`/`DEBUG_INFO` in a driver's `.c` file become `DEBUG_ERROR`.
- **`Names`** — which `.c` file a user's entry matches, the search token cut
  from it at the first `_`, and the search of the manifests (`.inf` files) of a
  directory walk for the first one that mentions the token.
- **`Manifest`** — `modify_inf_file` on the manifest's lines as `readlines()`
  returns them. It has an "already modified" guard. It puts the
  `HpCommonPkg/MemoryDebug/MemoryDebug.dec` line under the first `[Packages]`
  header. It puts the `MemDebugLib` line at the end of the first
  `[LibraryClasses]` block. Each new line is indented like the line under its
  header (`get_indentation`).
- **`ManifestFile`** — the same call seen through the file: `readlines()`
  splits the text after every "\n" and `writelines` joins the lines with no
  separator. Proved: a second run leaves a file that is empty or ends in "\n"
  as the first run left it; some files whose last line lacks "\n" are
  changed again (see "## Findings"); with the last line ended before the
  library line is put after it, a second run leaves every file alone.
- **`Strings`** — shared vocabulary: occurrences, `find`, `endswith`, and
  Python's `strip()` with its exact white-space set.

The model follows these details of the code:

- The "already modified" test compares the *stripped* line with `MemDebugLib`, not the raw line.
- Headers are recognised after `strip()`, so `"  [Packages]  \n"` is a header.
- The end of the `[LibraryClasses]` block is the first line that is exactly `"\n"`. A line holding only spaces does not end it.
- When the entered name has no `_`, the search token is the whole name, `.c` included.

The `IndexError` raised when a header is the last line (lines 161 and 168) is
modelled as the outcome `IndexError`. In that case the file is left untouched,
because the write at line 178 is never reached.

## Model

| member | source | states |
|---|---|---|
| Strings.StripSpec | ChangeToDebug_Controller.py:146-148 | the line is a run of white space, then what `strip()` returns, then a run of white space; that result has no white space at either end, and it is empty exactly when the line is all white space |
| Strings.Find | ChangeToDebug_Controller.py:129 | `token in text` holds exactly when a least index where the token occurs exists, and `find` returns that least index |
| Replace.ReplaceAbsent | ChangeToDebug_Controller.py:63 | when the pattern does not occur, `replace` returns its input unchanged |
| Replace.ReplaceUnchangedIff | ChangeToDebug_Controller.py:63 | with a replacement different from the pattern, the text is unchanged if and only if the pattern does not occur in it |
| Replace.ReplacePresent | ChangeToDebug_Controller.py:77 | when the pattern occurs and differs from its replacement, the text changes |
| Replace.ReplaceCopiesPrefix | ChangeToDebug_Controller.py:112 | text before the first occurrence is copied through unchanged |
| Replace.ReplaceFirstOccurrence | ChangeToDebug_Controller.py:112 | leftmost, non-overlapping semantics: the result is the text before the first occurrence, then the replacement, then the rewrite of what follows the occurrence |
| Replace.ReplaceWritesReplacement | ChangeToDebug_Controller.py:63 | the replacement appears in the result at the index of the first occurrence of the pattern |
| Replace.ReplaceLeavesNone | ChangeToDebug_Controller.py:112 | when the replacement cannot recreate a pattern `p`, the result has no occurrence of `p`, provided `p` is the pattern replaced or was absent from the input |
| Rewrites.PcdOnCannotRecreateOff | ChangeToDebug_Controller.py:32-33 | the TRUE line cannot recreate the FALSE line |
| Rewrites.LegacyValueCannotRecreateCall | ChangeToDebug_Controller.py:37 | `0` cannot recreate `IsLegacySupported()` |
| Rewrites.ErrorCannotRecreateWarnOrInfo | ChangeToDebug_Controller.py:112 | `DEBUG_ERROR` cannot recreate `DEBUG_WARN` or `DEBUG_INFO` |
| Rewrites.EnablePcdFlag | ChangeToDebug_Controller.py:53-67 | without the exact FALSE line, padding included, the text comes back character for character; with it, the file changes, contains the TRUE line and no FALSE line |
| Rewrites.EnablePcdFlagIdempotent | ChangeToDebug_Controller.py:63 | enabling the flag twice gives the same file as enabling it once |
| Rewrites.DisableLegacyCheck | ChangeToDebug_Controller.py:70-81 | no `IsLegacySupported()` is left, and the file changes if and only if it contained one |
| Rewrites.DisableLegacyCheckIdempotent | ChangeToDebug_Controller.py:77 | a second replacement changes nothing |
| Rewrites.RewriteSeverity | ChangeToDebug_Controller.py:109-115 | neither `DEBUG_WARN` nor `DEBUG_INFO` survives the two passes, and the file is unchanged if and only if it had neither |
| Rewrites.RewriteSeverityIdempotent | ChangeToDebug_Controller.py:112 | rewriting the severities twice gives the same file as once |
| Names.EnteredNameMustEndInC | ChangeToDebug_Controller.py:93 | an entry without `.c` never matches any file; for an entry ending in `.c` the extension test adds nothing and a file matches exactly when its name equals the entry |
| Names.SearchToken | ChangeToDebug_Controller.py:120-121 | the token is a prefix of the name without `_`; it stops right before the first `_` when there is one and is the whole name otherwise |
| Names.SearchTokenIdempotent | ChangeToDebug_Controller.py:120-121 | cutting an already cut name changes nothing |
| Names.FindManifest | ChangeToDebug_Controller.py:118-134 | a manifest is found if and only if some visited file has the extension and contains the token; the one returned is the first such file in walk order |
| Manifest.Indentation | ChangeToDebug_Controller.py:183-188 | the indentation is a prefix of the line made only of spaces, and maximal: it is the whole line or the next character is not a space |
| Manifest.GetIndentation | ChangeToDebug_Controller.py:183-188 | the counting loop returns the same maximal all-space prefix |
| Manifest.FindHeaderFrom | ChangeToDebug_Controller.py:158-159 | the index returned is the first line at or after the start that strips to the header; none is returned when no such line exists |
| Manifest.FindHeader | ChangeToDebug_Controller.py:165-166 | the index returned is the first header line, and none is returned exactly when no line strips to the header |
| Manifest.FindBlank | ChangeToDebug_Controller.py:169-174 | the scan stops at the first line at or after its start that is exactly "\n", or at the end; no line it passes is "\n" |
| Manifest.InsertLine | ChangeToDebug_Controller.py:162 | `list.insert` puts the new line at the index, and removing it gives back the old list |
| Manifest.AddPackage | ChangeToDebug_Controller.py:157-163 | without a `[Packages]` header nothing changes; a first header on the last line is an index error; otherwise exactly one line, the successor's indentation plus the package path, is inserted right after the first header |
| Manifest.AddLibrary | ChangeToDebug_Controller.py:164-176 | without a `[LibraryClasses]` header nothing changes; a first header on the last line is an index error; otherwise exactly one line, the successor's indentation plus `MemDebugLib`, is inserted where the scan for "\n" stops |
| Manifest.AddedLinesMarked | ChangeToDebug_Controller.py:139-149 | both inserted lines strip to the strings the guard looks for |
| Manifest.ModifyInf | ChangeToDebug_Controller.py:137-180 | the guard skips the file if and only if a line strips to either entry; an index error happens if and only if a first header is the last line; otherwise the lines gain one line per header present, the old lines come back in order once the marked lines are removed, and without headers nothing changes |
| Manifest.ModifyInfSecondCallSkips | ChangeToDebug_Controller.py:141-153 | after a call that inserted anything, a second call given the new list of lines finds the manifest already modified |
| Manifest.ModifyInfIdempotent | ChangeToDebug_Controller.py:137-180 | on the list of lines, running the manifest rewrite twice leaves the same lines as running it once |
| Replace.ReplaceAll | ChangeToDebug_Controller.py:63 | `str.replace`; it has no contract of its own and is characterised by `ReplaceAbsent`, `ReplaceUnchangedIff`, `ReplaceFirstOccurrence` and `ReplaceLeavesNone` |
| Strings.Strip | ChangeToDebug_Controller.py:146 | `strip()`, used at lines 146, 148, 159 and 166; it has no contract of its own and is characterised by `StripSpec` |
| Names.IsTargetSource | ChangeToDebug_Controller.py:93 | the test on a visited file's name; it is characterised by `EnteredNameMustEndInC` |
| Names.Declares | ChangeToDebug_Controller.py:124-129 | the test on a visited manifest; `FindManifest` returns the path of the first file that passes it |
| Manifest.IsMarked | ChangeToDebug_Controller.py:146-149 | a line whose stripped text is either entry; `AddedLinesMarked` shows both inserted lines pass it |
| Manifest.AlreadyModified | ChangeToDebug_Controller.py:141-151 | some line is marked; `ModifyInf` skips the file exactly when this holds |
| ManifestFile.ReadLinesSpec | ChangeToDebug_Controller.py:156 | `readlines()` returns non-empty lines with no inner "\n", each but the last ended by "\n", and joining them gives back the text read |
| ManifestFile.ReadJoin | ChangeToDebug_Controller.py:179 | lines of that shape, written with `writelines` and read again, come back unchanged |
| ManifestFile.RunAppendsLibraryLine | ChangeToDebug_Controller.py:164-179 | a file of two lines, a `[LibraryClasses]` header ended by "\n" and one more line that is not exactly "\n", not marked and does not strip to `[Packages]`, gets the library line written right after that line's text, whether or not the line ends in "\n" |
| ManifestFile.SecondRunAppendsAgain | ChangeToDebug_Controller.py:175-179 | when that last line lacks "\n" and the fused line is not marked, the second run writes the library line once more |
| ManifestFile.SecondRunInsertsAgain | ChangeToDebug_Controller.py:175-179 | on `"[LibraryClasses]\n  SomeLib"` the first run writes `"[LibraryClasses]\n  SomeLib  MemDebugLib\n"` and the second run appends `"  MemDebugLib\n"` to that |
| ManifestFile.RunOnManifestIdempotentWhenEnded | ChangeToDebug_Controller.py:137-180 | for a file that is empty or ends in "\n", a second run writes what the first run wrote |
| ManifestFile.AddLibraryFixedAgrees | ChangeToDebug_Controller.py:164-176 | the corrected library step fails exactly when the code's step does, and is the code's step when the last line ends in "\n" |
| ManifestFile.AddLibraryFixedLines | ChangeToDebug_Controller.py:164-176 | the corrected step's lines strip one by one to the code's lines and stay a shape `readlines()` can return |
| ManifestFile.ModifyInfFixed | ChangeToDebug_Controller.py:137-180 | the corrected call skips, fails and rewrites exactly when the code does; its lines strip like the code's and stay well split; without headers it changes nothing; when the last line ends in "\n" it is the code's call |
| ManifestFile.RunOnManifestFixedIdempotent | ChangeToDebug_Controller.py:137-180 | with the correction, a second run over the written file leaves it as the first run left it, whatever the file's text |

## Left out

- Directory walking (`os.walk`, including its bottom-up order at line 122) is not modelled. A walk is a parameter, given as the sequence of files it visits. Its order depends on the file system.
- `os.path.exists`/`isfile` checks and the opening of files are not modelled. A file's text is a parameter, and each rewrite maps old contents to new contents.
- Text-mode newline translation in the reads and writes is not modelled. That covers the three whole-file rewrites (lines 61, 66, 75, 80, 111 and 114) and the manifest. The model works on the text as Python sees it, so an unchanged rewrite gives back the same text character for character. On disk the write emits the platform's line ending, so the bytes may still differ.
- `Manifest.ModifyInfSecondCallSkips` holds for the list of lines passed from one call to the next. Through the file it is proved only for texts that are empty or end in "\n" (`ManifestFile.RunOnManifestIdempotentWhenEnded`). It fails when the library line is written onto an unended last line and no package line was added, as in `ManifestFile.SecondRunInsertsAgain`.
- `Manifest.ModifyInfIdempotent` holds for the list of lines. Through the file it is proved only for texts that are empty or end in "\n"; it fails when the library line is written onto an unended last line and no package line was added. `ManifestFile.RunOnManifestFixedIdempotent` states it for every text, with the correction listed under "## Findings".
- The orchestration in `Find_C_file` (lines 84-106) is not modelled: the loop over entries and roots, and the "Not found" report. Only its matching test at line 93 is modelled. In the code, the `continue` at line 104 does not stop the walk, so a `.c` file is edited wherever it matches, in every search root and every sub-directory.
- The `print_func` reporting is not modelled. Success is reported even when nothing changed, as the unchanged-when-absent lemmas show.
- The PyQt5 window, dialogs, the `Success` highlighting and the mode dispatch in `buttonClicked` are GUI code.
- `argparse_function` and logging setup are command-line plumbing.
- `Rewrites.EnablePcdFlag`, `Rewrites.DisableLegacyCheck` and `Rewrites.RewriteSeverity` rely on a sufficient condition, `Replace.CannotRecreate`, for the claim that no pattern survives. This condition is checked for the program's own literals. It is not a characterisation of all pattern pairs for which the claim holds.

## Findings

| source | as written | input that shows it | evidently intended | confidence | as-written member | corrected member |
|---|---|---|---|---|---|---|
| ChangeToDebug_Controller.py:175-179 | the library line is inserted after the last line of the file even when that line has no "\n", and `writelines` writes it onto the end of that line | `"[LibraryClasses]\n  SomeLib"`: the first run writes `"[LibraryClasses]\n  SomeLib  MemDebugLib\n"`, whose second line strips to `SomeLib  MemDebugLib` and is not marked, so a second run appends `"  MemDebugLib\n"` again | the library line stands on a line of its own, so that a second run finds the manifest modified and leaves it alone | not executed; high, the fused line follows from `readlines` and `writelines` alone | ManifestFile.SecondRunInsertsAgain | ManifestFile.RunOnManifestFixedIdempotent |

The corrected step, `ManifestFile.AddLibraryFixed`, first ends an unended last
line with "\n" when the library line goes after it, and otherwise does what
the code does. `ManifestFile.ModifyInfFixed` uses it. The list-level
`Manifest.ModifyInf` follows the code as written. The fused line is written
even when a second run would skip the file, for instance when a package line
was also added; the correction keeps the library line on a line of its own in
that case too.

=== FILE: manifest.dfy ===
/** The `.inf` manifest rewrite of memory-debug mode, on the manifest's lines
    as `readlines()` returns them (each line keeps its own "\n"). The package
    line is put directly under the first `[Packages]` header and the library
    line at the end of the first `[LibraryClasses]` block, unless the
    manifest already carries either of them. This is `modify_inf_file` and
    `get_indentation` of `ChangeToDebug_Controller.py`; line numbers refer to
    that file. */
module Manifest {
  import opened Strings

  const PackagesHeader := "[Packages]"
  const LibraryClassesHeader := "[LibraryClasses]"
  const PackagesEntry := "HpCommonPkg/MemoryDebug/MemoryDebug.dec"
  const LibraryEntry := "MemDebugLib"
  const BlankLine := "\n"

  /** Lines 183-188: the leading run of spaces of a line; tabs do not count. */
  function Indentation(line: string): (r: string)
    ensures r <= line
    ensures forall i :: 0 <= i < |r| ==> r[i] == ' '
    ensures r == line || line[|r|] != ' '
  {
    if |line| > 0 && line[0] == ' ' then [' '] + Indentation(line[1..]) else []
  }

  /** One more space scanned: the scanned part grows by that space and the
      indentation still to come shrinks by it. */
  lemma IndentationAdvance(line: string, i: nat)
    requires i < |line| && line[i] == ' '
    requires Indentation(line) == line[..i] + Indentation(line[i..])
    ensures Indentation(line) == line[..i + 1] + Indentation(line[i + 1..])
  {
    assert line[i..][1..] == line[i + 1..];
    assert Indentation(line[i..]) == [' '] + Indentation(line[i + 1..]);
    AppendAssoc(line[..i], [' '], Indentation(line[i + 1..]));
    assert line[..i + 1] == line[..i] + [' '];
  }

  /** The scan stops at the end of the line or at a character other than a
      space: what it has scanned is the whole indentation. */
  lemma IndentationDone(line: string, i: nat)
    requires i <= |line| && (i == |line| || line[i] != ' ')
    requires Indentation(line) == line[..i] + Indentation(line[i..])
    ensures Indentation(line) == line[..i]
  {
    assert Indentation(line[i..]) == [] by {
      assert i == |line| || line[i..][0] != ' ';
    }
    AppendEmpty(line[..i]);
  }

  /** Lines 183-188 as written, a scan with a counter. */
  method GetIndentation(line: string) returns (indent: string)
    ensures indent == Indentation(line)
    ensures indent <= line
    ensures forall k :: 0 <= k < |indent| ==> indent[k] == ' '
    ensures indent == line || line[|indent|] != ' '
  {
    var i := 0;
    while i < |line| && line[i] == ' '
      invariant 0 <= i <= |line|
      invariant Indentation(line) == line[..i] + Indentation(line[i..])
    {
      IndentationAdvance(line, i);
      i := i + 1;
    }
    IndentationDone(line, i);
    indent := line[..i];
  }

  /** The two lines the rewrite adds, given the indentation to use. */
  function PackagesLine(indent: string): string
  {
    indent + PackagesEntry + "\n"
  }

  function LibraryLine(indent: string): string
  {
    indent + LibraryEntry + "\n"
  }

  /** Lines 146-149: a line that already declares memory debug. */
  predicate IsMarked(line: string)
  {
    Strip(line) == PackagesEntry || Strip(line) == LibraryEntry
  }

  /** Lines 141-151: the manifest counts as modified when any one of its
      lines is marked, whichever of the two it is. */
  predicate AlreadyModified(lines: seq<string>)
  {
    exists i :: 0 <= i < |lines| && IsMarked(lines[i])
  }

  predicate HasHeader(lines: seq<string>, header: string)
  {
    exists i :: 0 <= i < |lines| && Strip(lines[i]) == header
  }

  /** One when the manifest has the header, zero otherwise. */
  function HeaderCount(lines: seq<string>, header: string): nat
  {
    if HasHeader(lines, header) then 1 else 0
  }

  /** `lines[i]` is the first line that strips to `header`. */
  predicate FirstHeader(lines: seq<string>, header: string, i: int)
  {
    && 0 <= i < |lines|
    && Strip(lines[i]) == header
    && forall j :: 0 <= j < i ==> Strip(lines[j]) != header
  }

  /** The first header is the last line, so the line under it does not exist. */
  predicate HeaderIsLast(lines: seq<string>, header: string)
  {
    FirstHeader(lines, header, |lines| - 1)
  }

  /** Lines 158-159 and 165-166: the index of the first header line at or
      after `from`. */
  function FindHeaderFrom(lines: seq<string>, header: string, from: nat): (r: Option<nat>)
    requires from <= |lines|
    ensures r.Some? ==> from <= r.value < |lines| && Strip(lines[r.value]) == header
    ensures r.Some? ==> forall j :: from <= j < r.value ==> Strip(lines[j]) != header
    ensures r.None? ==> forall j :: from <= j < |lines| ==> Strip(lines[j]) != header
    decreases |lines| - from
  {
    if from == |lines| then None
    else if Strip(lines[from]) == header then Some(from)
    else FindHeaderFrom(lines, header, from + 1)
  }

  function FindHeader(lines: seq<string>, header: string): (r: Option<nat>)
    ensures r.Some? ==> FirstHeader(lines, header, r.value)
    ensures r.None? <==> !HasHeader(lines, header)
  {
    FindHeaderFrom(lines, header, 0)
  }

  /** `k` is where the scan of lines 169-174 stops when it starts at `from`:
      the first line at or after `from` that is exactly "\n", or the end. */
  predicate BlankSlot(lines: seq<string>, from: int, k: int)
  {
    && 0 <= from <= k <= |lines|
    && (forall m :: from <= m < k ==> lines[m] != BlankLine)
    && (k < |lines| ==> lines[k] == BlankLine)
  }

  function FindBlank(lines: seq<string>, from: nat): (k: nat)
    requires from <= |lines|
    ensures BlankSlot(lines, from, k)
    decreases |lines| - from
  {
    if from == |lines| || lines[from] == BlankLine then from
    else FindBlank(lines, from + 1)
  }

  /** `out` is `orig` with the single line `x` put at index `k`. */
  predicate Inserted(out: seq<string>, orig: seq<string>, k: int, x: string)
  {
    && 0 <= k <= |orig|
    && |out| == |orig| + 1
    && out[k] == x
    && out[..k] + out[k + 1..] == orig
  }

  lemma InsertSplit(lines: seq<string>, k: nat, x: string)
    requires k <= |lines|
    ensures InsertLine(lines, k, x) == (lines[..k] + [x]) + lines[k..]
  {
  }

  /** Python's `list.insert(k, x)` for an index inside the list. */
  function InsertLine(lines: seq<string>, k: nat, x: string): (r: seq<string>)
    requires k <= |lines|
    ensures Inserted(r, lines, k, x)
  {
    var r := lines[..k] + [x] + lines[k..];
    assert r[..k] == lines[..k];
    assert r[k + 1..] == lines[k..];
    r
  }

  /** Lines 157-163: the package line goes directly under the first
      `[Packages]` header, indented like the line that follows the header.
      A header on the last line makes `lines[i+1]` fail (`None`). */
  function AddPackage(lines: seq<string>): (r: Option<seq<string>>)
    ensures !HasHeader(lines, PackagesHeader) ==> r == Some(lines)
    ensures r.None? <==> HeaderIsLast(lines, PackagesHeader)
    ensures forall i :: FirstHeader(lines, PackagesHeader, i) && i + 1 < |lines| ==>
      r.Some? && Inserted(r.value, lines, i + 1, PackagesLine(Indentation(lines[i + 1])))
  {
    match FindHeader(lines, PackagesHeader)
    case None => Some(lines)
    case Some(i) =>
      if i + 1 == |lines| then None
      else Some(InsertLine(lines, i + 1, PackagesLine(Indentation(lines[i + 1]))))
  }

  /** Lines 164-176: the library line goes at the end of the first
      `[LibraryClasses]` block, before the first line that is exactly "\n"
      after the header's successor (or at the end of the file), indented
      like the header's successor. */
  function AddLibrary(lines: seq<string>): (r: Option<seq<string>>)
    ensures !HasHeader(lines, LibraryClassesHeader) ==> r == Some(lines)
    ensures r.None? <==> HeaderIsLast(lines, LibraryClassesHeader)
    ensures forall j :: FirstHeader(lines, LibraryClassesHeader, j) && j + 1 < |lines| ==>
      r.Some? && Inserted(r.value, lines, FindBlank(lines, j + 1), LibraryLine(Indentation(lines[j + 1])))
  {
    match FindHeader(lines, LibraryClassesHeader)
    case None => Some(lines)
    case Some(j) =>
      if j + 1 == |lines| then None
      else
        var k := FindBlank(lines, j + 1);
        Some(InsertLine(lines, k, LibraryLine(Indentation(lines[j + 1]))))
  }

  /** What the call does to the manifest: left alone because it is already
      modified, left alone because an index went out of range before the
      write, or rewritten with the new lines. */
  datatype InfResult = AlreadyDebug | IndexError | Rewritten(lines: seq<string>)

  /** The lines of a manifest without the marked ones. */
  function RemoveMarked(lines: seq<string>): (r: seq<string>)
    ensures |r| <= |lines|
    ensures forall i :: 0 <= i < |r| ==> !IsMarked(r[i])
  {
    if |lines| == 0 then []
    else if IsMarked(lines[0]) then RemoveMarked(lines[1..])
    else [lines[0]] + RemoveMarked(lines[1..])
  }

  /** Lines 137-180. */
  function ModifyInf(lines: seq<string>): (r: InfResult)
    ensures r.AlreadyDebug? <==> AlreadyModified(lines)
    ensures r.IndexError? <==>
      && !AlreadyModified(lines)
      && (HeaderIsLast(lines, PackagesHeader) || HeaderIsLast(lines, LibraryClassesHeader))
    ensures r.Rewritten? ==> RemoveMarked(r.lines) == lines
    ensures r.Rewritten? ==>
      |r.lines| == |lines| + HeaderCount(lines, PackagesHeader) + HeaderCount(lines, LibraryClassesHeader)
    ensures
      && !AlreadyModified(lines)
      && !HasHeader(lines, PackagesHeader)
      && !HasHeader(lines, LibraryClassesHeader)
      ==> r == Rewritten(lines)
  {
    if AlreadyModified(lines) then AlreadyDebug
    else
      match AddPackage(lines)
      case None => IndexError
      case Some(withPackage) =>
        AddPackageKeepsLibrary(lines, withPackage);
        match AddLibrary(withPackage)
        case None => IndexError
        case Some(out) =>
          AddPackageMarks(lines, withPackage);
          AddLibraryMarks(withPackage, out);
          Rewritten(out)
  }

  /** Both added lines strip to their entry, so they are marked. */
  lemma AddedLinesMarked(indent: string)
    requires forall i :: 0 <= i < |indent| ==> indent[i] == ' '
    ensures Strip(PackagesLine(indent)) == PackagesEntry
    ensures Strip(LibraryLine(indent)) == LibraryEntry
    ensures IsMarked(PackagesLine(indent)) && IsMarked(LibraryLine(indent))
  {
    StripPadded(indent, PackagesEntry, "\n");
    StripPadded(indent, LibraryEntry, "\n");
  }

  lemma {:induction false} RemoveMarkedAppend(a: seq<string>, b: seq<string>)
    ensures RemoveMarked(a + b) == RemoveMarked(a) + RemoveMarked(b)
    decreases |a|
  {
    if |a| == 0 {
      assert a + b == b;
    } else {
      assert (a + b)[1..] == a[1..] + b;
      RemoveMarkedAppend(a[1..], b);
    }
  }

  /** Removing the marked lines undoes the insertion of a marked line. */
  lemma RemoveMarkedInsert(lines: seq<string>, k: nat, x: string)
    requires k <= |lines| && IsMarked(x)
    ensures RemoveMarked(InsertLine(lines, k, x)) == RemoveMarked(lines)
  {
    var front, back := lines[..k], lines[k..];
    InsertSplit(lines, k, x);
    RemoveMarkedAppend(front + [x], back);
    RemoveMarkedAppend(front, [x]);
    assert RemoveMarked([x]) == [] by {
      assert [x][1..] == [];
    }
    AppendEmpty(RemoveMarked(front));
    RemoveMarkedAppend(front, back);
    SplitJoin(lines, k);
  }

  /** A manifest without marked lines loses nothing to `RemoveMarked`. */
  lemma {:induction false} RemoveMarkedUnmarked(lines: seq<string>)
    ensures !AlreadyModified(lines) ==> RemoveMarked(lines) == lines
    decreases |lines|
  {
    if |lines| > 0 && !AlreadyModified(lines) {
      assert !IsMarked(lines[0]);
      assert !AlreadyModified(lines[1..]) by {
        assert forall i :: 1 <= i < |lines| ==> lines[1..][i - 1] == lines[i];
      }
      RemoveMarkedUnmarked(lines[1..]);
      assert lines == [lines[0]] + lines[1..];
    }
  }

  /** Inserting a line that is not a header neither adds nor removes a
      header. */
  lemma InsertKeepsHasHeader(lines: seq<string>, k: nat, x: string, header: string)
    requires k <= |lines| && Strip(x) != header
    ensures HasHeader(InsertLine(lines, k, x), header) <==> HasHeader(lines, header)
  {
    var out := InsertLine(lines, k, x);
    assert forall i :: 0 <= i < k ==> out[i] == lines[i];
    assert forall i :: k <= i < |lines| ==> out[i + 1] == lines[i];
    if HasHeader(lines, header) {
      var i :| 0 <= i < |lines| && Strip(lines[i]) == header;
      if i < k {
        assert Strip(out[i]) == header;
      } else {
        assert Strip(out[i + 1]) == header;
      }
    }
    if HasHeader(out, header) {
      var i :| 0 <= i < |out| && Strip(out[i]) == header;
      if i < k {
        assert Strip(lines[i]) == header;
      } else {
        assert i != k;
        assert Strip(lines[i - 1]) == header;
      }
    }
  }

  /** Inserting a line that is not a header anywhere but at the very end
      does not move the first header onto or off the last line. */
  lemma InsertKeepsHeaderIsLast(lines: seq<string>, k: nat, x: string, header: string)
    requires k < |lines| && Strip(x) != header
    ensures HeaderIsLast(InsertLine(lines, k, x), header) <==> HeaderIsLast(lines, header)
  {
    var out := InsertLine(lines, k, x);
    assert out[|out| - 1] == lines[|lines| - 1];
    if HeaderIsLast(lines, header) {
      forall j | 0 <= j < |out| - 1 ensures Strip(out[j]) != header {
        if j > k {
          assert out[j] == lines[j - 1];
        } else if j < k {
          assert out[j] == lines[j];
        }
      }
    }
    if HeaderIsLast(out, header) {
      forall j | 0 <= j < |lines| - 1 ensures Strip(lines[j]) != header {
        if j >= k {
          assert out[j + 1] == lines[j];
        } else {
          assert out[j] == lines[j];
        }
      }
    }
  }

  /** Inserting a line that is not a header anywhere but at the very end
      neither adds nor removes a header, nor moves the first one onto or off
      the last line. */
  lemma InsertKeepsHeaders(lines: seq<string>, k: nat, x: string, header: string)
    requires k < |lines| && Strip(x) != header
    ensures HasHeader(InsertLine(lines, k, x), header) <==> HasHeader(lines, header)
    ensures HeaderIsLast(InsertLine(lines, k, x), header) <==> HeaderIsLast(lines, header)
  {
    InsertKeepsHasHeader(lines, k, x, header);
    InsertKeepsHeaderIsLast(lines, k, x, header);
  }

  lemma AddPackageKeepsLibrary(lines: seq<string>, withPackage: seq<string>)
    requires AddPackage(lines) == Some(withPackage)
    ensures HasHeader(withPackage, LibraryClassesHeader) <==> HasHeader(lines, LibraryClassesHeader)
    ensures HeaderIsLast(withPackage, LibraryClassesHeader) <==> HeaderIsLast(lines, LibraryClassesHeader)
    ensures |withPackage| == |lines| + (if HasHeader(lines, PackagesHeader) then 1 else 0)
  {
    match FindHeader(lines, PackagesHeader)
    case None =>
    case Some(i) =>
      var indent := Indentation(lines[i + 1]);
      AddedLinesMarked(indent);
      InsertKeepsHeaders(lines, i + 1, PackagesLine(indent), LibraryClassesHeader);
  }

  lemma AddPackageMarks(lines: seq<string>, withPackage: seq<string>)
    requires !AlreadyModified(lines)
    requires AddPackage(lines) == Some(withPackage)
    ensures RemoveMarked(withPackage) == lines
  {
    RemoveMarkedUnmarked(lines);
    match FindHeader(lines, PackagesHeader)
    case None =>
    case Some(i) =>
      var indent := Indentation(lines[i + 1]);
      AddedLinesMarked(indent);
      RemoveMarkedInsert(lines, i + 1, PackagesLine(indent));
  }

  lemma AddLibraryMarks(withPackage: seq<string>, out: seq<string>)
    requires AddLibrary(withPackage) == Some(out)
    ensures RemoveMarked(out) == RemoveMarked(withPackage)
    ensures |out| == |withPackage| + (if HasHeader(withPackage, LibraryClassesHeader) then 1 else 0)
  {
    match FindHeader(withPackage, LibraryClassesHeader)
    case None =>
    case Some(j) =>
      var indent := Indentation(withPackage[j + 1]);
      AddedLinesMarked(indent);
      RemoveMarkedInsert(withPackage, FindBlank(withPackage, j + 1), LibraryLine(indent));
  }

  /** The manifest's lines once the call is over: the rewritten lines, or the
      old ones when nothing was written. */
  function InfAfter(lines: seq<string>): seq<string>
  {
    match ModifyInf(lines)
    case Rewritten(out) => out
    case _ => lines
  }

  /** After a call that inserted anything, a second call finds the manifest
      already modified and writes nothing. */
  lemma ModifyInfSecondCallSkips(lines: seq<string>)
    requires ModifyInf(lines).Rewritten?
    requires HasHeader(lines, PackagesHeader) || HasHeader(lines, LibraryClassesHeader)
    ensures ModifyInf(ModifyInf(lines).lines) == AlreadyDebug
  {
    var out := ModifyInf(lines).lines;
    RemoveMarkedUnmarked(out);
  }

  /** Running the manifest rewrite twice leaves the same lines as running it
      once. */
  lemma ModifyInfIdempotent(lines: seq<string>)
    ensures InfAfter(InfAfter(lines)) == InfAfter(lines)
  {
    if ModifyInf(lines).Rewritten? {
      if HasHeader(lines, PackagesHeader) || HasHeader(lines, LibraryClassesHeader) {
        ModifyInfSecondCallSkips(lines);
      }
    }
  }
}

=== FILE: manifest_file.dfy ===
/** The manifest rewrite seen through the file it reads and writes.
    `readlines()` (lines 142 and 156) cuts the text after every "\n", so only
    the last line can lack one; `writelines` (line 179) joins the lines with
    no separator. A line inserted after a last line without "\n" is written
    onto the end of that line. Line numbers refer to
    `ChangeToDebug_Controller.py`. */
module ManifestFile {
  import opened Strings
  import opened Manifest

  /** A line as `readlines()` returns it: not empty, and no "\n" before its
      last character. */
  predicate IsLine(l: string)
  {
    |l| > 0 && forall i :: 0 <= i < |l| - 1 ==> l[i] != '\n'
  }

  predicate EndsLine(l: string)
  {
    |l| > 0 && l[|l| - 1] == '\n'
  }

  /** What `readlines()` can return: lines, each but the last ended by "\n". */
  predicate WellSplit(lines: seq<string>)
  {
    && (forall i :: 0 <= i < |lines| ==> IsLine(lines[i]))
    && (forall i :: 0 <= i < |lines| - 1 ==> EndsLine(lines[i]))
  }

  /** The length of the first line of `text`, its "\n" included. */
  function LineLength(text: string): (n: nat)
    ensures |text| > 0 ==> 1 <= n <= |text|
  {
    if |text| == 0 then 0
    else if text[0] == '\n' then 1
    else 1 + LineLength(text[1..])
  }

  /** Lines 142 and 156: `readlines()`. */
  function ReadLines(text: string): seq<string>
    decreases |text|
  {
    if |text| == 0 then []
    else
      var n := LineLength(text);
      [text[..n]] + ReadLines(text[n..])
  }

  /** Line 179: `writelines`, which adds no separator. */
  function Join(lines: seq<string>): string
  {
    if |lines| == 0 then [] else lines[0] + Join(lines[1..])
  }

  /** The first line of a text stops at its first "\n", or at the end. */
  lemma {:induction false} LineLengthSpec(text: string)
    requires |text| > 0
    ensures IsLine(text[..LineLength(text)])
    ensures LineLength(text) < |text| ==> EndsLine(text[..LineLength(text)])
    decreases |text|
  {
    if text[0] != '\n' && |text| > 1 {
      var m := LineLength(text[1..]);
      LineLengthSpec(text[1..]);
      var l := text[..1 + m];
      assert l == [text[0]] + text[1..][..m];
      assert forall i :: 1 <= i < |l| ==> l[i] == text[1..][..m][i - 1];
    }
  }

  /** A line that ends in "\n", or that nothing follows, is read back whole. */
  lemma {:induction false} LineLengthOf(l: string, rest: string)
    requires IsLine(l) && (EndsLine(l) || rest == [])
    ensures LineLength(l + rest) == |l|
    decreases |l|
  {
    var t := l + rest;
    assert t[0] == l[0];
    if |l| > 1 {
      assert l[0] != '\n';
      assert t[1..] == l[1..] + rest;
      assert forall i :: 0 <= i < |l| - 1 ==> l[1..][i] == l[i + 1];
      LineLengthOf(l[1..], rest);
    } else if !EndsLine(l) {
      assert t == l;
      assert t[1..] == [];
    }
  }

  /** `readlines()` returns well-split lines, and writing them back gives the
      text that was read. */
  lemma {:induction false} ReadLinesSpec(text: string)
    ensures WellSplit(ReadLines(text))
    ensures Join(ReadLines(text)) == text
    decreases |text|
  {
    if |text| > 0 {
      var n := LineLength(text);
      var rest := ReadLines(text[n..]);
      LineLengthSpec(text);
      ReadLinesSpec(text[n..]);
      var lines := [text[..n]] + rest;
      assert ReadLines(text) == lines;
      assert lines[1..] == rest;
      assert forall i :: 1 <= i < |lines| ==> lines[i] == rest[i - 1];
      assert n == |text| ==> rest == [] by {
        if n == |text| {
          assert text[n..] == [];
        }
      }
      assert text[..n] + text[n..] == text;
    }
  }

  /** Well-split lines survive a write followed by a read. */
  lemma {:induction false} ReadJoin(lines: seq<string>)
    requires WellSplit(lines)
    ensures ReadLines(Join(lines)) == lines
    decreases |lines|
  {
    if |lines| > 0 {
      var rest := lines[1..];
      assert forall i :: 0 <= i < |rest| ==> rest[i] == lines[i + 1];
      assert WellSplit(rest);
      ReadJoin(rest);
      assert |lines| == 1 ==> Join(rest) == [] by {
        if |lines| == 1 {
          assert rest == [];
        }
      }
      LineLengthOf(lines[0], Join(rest));
      var t := Join(lines);
      assert t == lines[0] + Join(rest);
      assert t[..|lines[0]|] == lines[0];
      assert t[|lines[0]|..] == Join(rest);
      assert lines == [lines[0]] + rest;
    }
  }

  /** The written text ends in "\n" exactly when the last line does. */
  lemma {:induction false} JoinEndsLikeLastLine(lines: seq<string>)
    requires |lines| > 0 && WellSplit(lines)
    ensures |Join(lines)| > 0
    ensures Join(lines)[|Join(lines)| - 1] == lines[|lines| - 1][|lines[|lines| - 1]| - 1]
    decreases |lines|
  {
    var rest := lines[1..];
    if |lines| == 1 {
      assert rest == [];
      assert Join(lines) == lines[0] + [];
    } else {
      assert forall i :: 0 <= i < |rest| ==> rest[i] == lines[i + 1];
      assert WellSplit(rest);
      JoinEndsLikeLastLine(rest);
      assert rest[|rest| - 1] == lines[|lines| - 1];
    }
  }

  /** The two inserted lines are whole lines ended by "\n". */
  lemma EntryLineIsLine(indent: string, entry: string)
    requires forall i :: 0 <= i < |indent| ==> indent[i] == ' '
    requires forall i :: 0 <= i < |entry| ==> entry[i] != '\n'
    ensures IsLine(indent + entry + "\n") && EndsLine(indent + entry + "\n")
  {
    var l := indent + entry + "\n";
    assert forall i :: 0 <= i < |indent| ==> l[i] == indent[i];
    assert forall i :: |indent| <= i < |l| - 1 ==> l[i] == entry[i - |indent|];
  }

  lemma AddedLinesAreLines(indent: string)
    requires forall i :: 0 <= i < |indent| ==> indent[i] == ' '
    ensures IsLine(PackagesLine(indent)) && EndsLine(PackagesLine(indent))
    ensures IsLine(LibraryLine(indent)) && EndsLine(LibraryLine(indent))
  {
    EntryLineIsLine(indent, PackagesEntry);
    EntryLineIsLine(indent, LibraryEntry);
  }

  /** An inserted whole line keeps the lines well split, provided it is not
      put after a last line that lacks "\n". */
  lemma InsertKeepsWellSplit(lines: seq<string>, k: nat, x: string)
    requires WellSplit(lines) && k <= |lines|
    requires IsLine(x) && EndsLine(x)
    requires 0 < k == |lines| ==> EndsLine(lines[k - 1])
    ensures WellSplit(InsertLine(lines, k, x))
  {
    InsertSplit(lines, k, x);
    var out := InsertLine(lines, k, x);
    assert forall i :: 0 <= i < k ==> out[i] == lines[i];
    assert forall i :: k < i < |out| ==> out[i] == lines[i - 1];
  }

  /** Two manifests whose lines strip, one by one, to the same text. */
  predicate SameStrips(a: seq<string>, b: seq<string>)
  {
    |a| == |b| && forall i :: 0 <= i < |a| ==> Strip(a[i]) == Strip(b[i])
  }

  /** The guard of lines 141-153 looks only at stripped lines. */
  lemma SameStripsModified(a: seq<string>, b: seq<string>)
    requires SameStrips(a, b)
    ensures AlreadyModified(a) <==> AlreadyModified(b)
  {
    if AlreadyModified(a) {
      var i :| 0 <= i < |a| && IsMarked(a[i]);
      assert IsMarked(b[i]);
    }
    if AlreadyModified(b) {
      var i :| 0 <= i < |b| && IsMarked(b[i]);
      assert IsMarked(a[i]);
    }
  }

  lemma InsertSameStrips(a: seq<string>, b: seq<string>, k: nat, x: string)
    requires SameStrips(a, b) && k <= |a|
    ensures SameStrips(InsertLine(a, k, x), InsertLine(b, k, x))
  {
    InsertSplit(a, k, x);
    InsertSplit(b, k, x);
    var oa := InsertLine(a, k, x);
    var ob := InsertLine(b, k, x);
    forall i | 0 <= i < |oa|
      ensures Strip(oa[i]) == Strip(ob[i])
    {
      if i < k {
        assert oa[i] == a[i] && ob[i] == b[i];
      } else if k < i {
        assert oa[i] == a[i - 1] && ob[i] == b[i - 1];
      }
    }
  }

  /** The correction: before a line is put after the last line, that last
      line is given the "\n" it lacks. */
  function EndLineBefore(lines: seq<string>, k: nat): seq<string>
    requires k <= |lines|
  {
    if 0 < k == |lines| && !EndsLine(lines[k - 1]) then lines[..k - 1] + [lines[k - 1] + "\n"]
    else lines
  }

  /** Ending the last line changes no stripped line, keeps the lines well
      split, and leaves a well-ended list as it is. */
  lemma EndLineBeforeSpec(lines: seq<string>, k: nat)
    requires k <= |lines|
    ensures SameStrips(EndLineBefore(lines, k), lines)
    ensures WellSplit(lines) ==> WellSplit(EndLineBefore(lines, k))
    ensures 0 < k == |lines| ==> EndsLine(EndLineBefore(lines, k)[k - 1])
    ensures (k < |lines| || k == 0 || EndsLine(lines[k - 1])) ==> EndLineBefore(lines, k) == lines
  {
    if 0 < k == |lines| && !EndsLine(lines[k - 1]) {
      var r := EndLineBefore(lines, k);
      var l := lines[k - 1];
      StripIgnoresNewline(l);
      assert forall i :: 0 <= i < k - 1 ==> r[i] == lines[i];
      assert r[k - 1] == l + "\n";
      assert IsLine(l) ==> IsLine(l + "\n") by {
        assert forall i :: 0 <= i < |l| ==> (l + "\n")[i] == l[i];
      }
    }
  }

  /** Inserting after ending the last line gives lines that strip like the
      plain insertion, stay well split, and are the plain insertion when
      there was nothing to end. */
  lemma EndedInsert(lines: seq<string>, k: nat, x: string)
    requires k <= |lines| && IsLine(x) && EndsLine(x)
    ensures SameStrips(InsertLine(EndLineBefore(lines, k), k, x), InsertLine(lines, k, x))
    ensures WellSplit(lines) ==> WellSplit(InsertLine(EndLineBefore(lines, k), k, x))
    ensures (k < |lines| || k == 0 || EndsLine(lines[k - 1])) ==>
      InsertLine(EndLineBefore(lines, k), k, x) == InsertLine(lines, k, x)
  {
    var ended := EndLineBefore(lines, k);
    EndLineBeforeSpec(lines, k);
    InsertSameStrips(ended, lines, k, x);
    if WellSplit(lines) {
      InsertKeepsWellSplit(ended, k, x);
    }
  }

  /** Lines 164-176 as evidently intended: the library line goes where the
      code puts it, but a last line without "\n" is ended first, so that the
      written file keeps the new line on a line of its own. */
  function AddLibraryFixed(lines: seq<string>): Option<seq<string>>
  {
    match FindHeader(lines, LibraryClassesHeader)
    case None => Some(lines)
    case Some(j) =>
      if j + 1 == |lines| then None
      else
        var k := FindBlank(lines, j + 1);
        Some(InsertLine(EndLineBefore(lines, k), k, LibraryLine(Indentation(lines[j + 1]))))
  }

  /** Where the library step puts its line, in the code and corrected. */
  lemma AddLibrarySteps(lines: seq<string>, j: nat)
    requires FirstHeader(lines, LibraryClassesHeader, j) && j + 1 < |lines|
    ensures var k := FindBlank(lines, j + 1);
      var x := LibraryLine(Indentation(lines[j + 1]));
      && IsLine(x) && EndsLine(x)
      && AddLibrary(lines) == Some(InsertLine(lines, k, x))
      && AddLibraryFixed(lines) == Some(InsertLine(EndLineBefore(lines, k), k, x))
  {
    AddedLinesAreLines(Indentation(lines[j + 1]));
  }

  /** The corrected step fails exactly when the code's step does, and it is
      the code's step whenever the last line ends in "\n". */
  lemma AddLibraryFixedAgrees(lines: seq<string>)
    ensures AddLibraryFixed(lines).None? <==> AddLibrary(lines).None?
    ensures (|lines| == 0 || EndsLine(lines[|lines| - 1])) ==> AddLibraryFixed(lines) == AddLibrary(lines)
  {
    match FindHeader(lines, LibraryClassesHeader)
    case None =>
      assert AddLibraryFixed(lines) == Some(lines) == AddLibrary(lines);
    case Some(j) =>
      if j + 1 == |lines| {
        assert HeaderIsLast(lines, LibraryClassesHeader);
        assert AddLibraryFixed(lines).None? && AddLibrary(lines).None?;
      } else {
        var k := FindBlank(lines, j + 1);
        AddLibrarySteps(lines, j);
        if EndsLine(lines[|lines| - 1]) {
          assert k < |lines| || EndsLine(lines[k - 1]);
          assert EndLineBefore(lines, k) == lines;
        }
      }
  }

  /** The corrected step's lines strip one by one to the code's lines, and
      they stay well split. */
  lemma AddLibraryFixedLines(lines: seq<string>)
    requires AddLibraryFixed(lines).Some?
    ensures AddLibrary(lines).Some?
    ensures SameStrips(AddLibraryFixed(lines).value, AddLibrary(lines).value)
    ensures WellSplit(lines) ==> WellSplit(AddLibraryFixed(lines).value)
  {
    match FindHeader(lines, LibraryClassesHeader)
    case None =>
      assert SameStrips(lines, lines);
    case Some(j) =>
      AddLibrarySteps(lines, j);
      EndedInsert(lines, FindBlank(lines, j + 1), LibraryLine(Indentation(lines[j + 1])));
  }

  /** The package step keeps the lines well split and keeps the last line. */
  lemma AddPackageKeepsSplit(lines: seq<string>, withPackage: seq<string>)
    requires AddPackage(lines) == Some(withPackage)
    ensures WellSplit(lines) ==> WellSplit(withPackage)
    ensures |lines| == 0 <==> |withPackage| == 0
    ensures |lines| > 0 ==> withPackage[|withPackage| - 1] == lines[|lines| - 1]
  {
    match FindHeader(lines, PackagesHeader)
    case None =>
    case Some(i) =>
      var indent := Indentation(lines[i + 1]);
      InsertSplit(lines, i + 1, PackagesLine(indent));
      AddedLinesAreLines(indent);
      if WellSplit(lines) {
        InsertKeepsWellSplit(lines, i + 1, PackagesLine(indent));
      }
  }

  /** Lines 137-180 with the corrected library step. It decides as the code
      does, its lines strip one by one to the code's lines, and it differs
      from the code only when the last line lacks "\n". */
  function ModifyInfFixed(lines: seq<string>): (r: InfResult)
    ensures r.AlreadyDebug? <==> ModifyInf(lines).AlreadyDebug?
    ensures r.Rewritten? <==> ModifyInf(lines).Rewritten?
    ensures r.Rewritten? ==> SameStrips(r.lines, ModifyInf(lines).lines)
    ensures r.Rewritten? && WellSplit(lines) ==> WellSplit(r.lines)
    ensures
      && !AlreadyModified(lines)
      && !HasHeader(lines, PackagesHeader)
      && !HasHeader(lines, LibraryClassesHeader)
      ==> r == Rewritten(lines)
    ensures (|lines| == 0 || EndsLine(lines[|lines| - 1])) ==> r == ModifyInf(lines)
  {
    if AlreadyModified(lines) then AlreadyDebug
    else
      match AddPackage(lines)
      case None => IndexError
      case Some(withPackage) =>
        AddPackageKeepsSplit(lines, withPackage);
        AddPackageKeepsLibrary(lines, withPackage);
        AddLibraryFixedAgrees(withPackage);
        match AddLibraryFixed(withPackage)
        case None => IndexError
        case Some(out) =>
          AddLibraryFixedLines(withPackage);
          Rewritten(out)
  }

  /** Lines 141-179 on the file's text, as written: the text is read with
      `readlines()` and, when the call rewrites the lines, written back with
      `writelines`; otherwise the file keeps its text. */
  function RunOnManifest(text: string): string
  {
    match ModifyInf(ReadLines(text))
    case Rewritten(out) => Join(out)
    case _ => text
  }

  /** The same with the corrected library step. */
  function RunOnManifestFixed(text: string): string
  {
    match ModifyInfFixed(ReadLines(text))
    case Rewritten(out) => Join(out)
    case _ => text
  }

  /** With the correction, a second run over the written file leaves it as
      the first run left it, whatever the file's text. */
  lemma RunOnManifestFixedIdempotent(text: string)
    ensures RunOnManifestFixed(RunOnManifestFixed(text)) == RunOnManifestFixed(text)
  {
    var lines := ReadLines(text);
    ReadLinesSpec(text);
    match ModifyInfFixed(lines)
    case Rewritten(out) =>
      ReadJoin(out);
      if HasHeader(lines, PackagesHeader) || HasHeader(lines, LibraryClassesHeader) {
        ModifyInfSecondCallSkips(lines);
        SameStripsModified(out, ModifyInf(lines).lines);
      }
    case _ =>
  }

  /** As written, a second run leaves the file alone when its text is empty
      or ends in "\n". */
  lemma RunOnManifestIdempotentWhenEnded(text: string)
    requires |text| == 0 || text[|text| - 1] == '\n'
    ensures RunOnManifest(RunOnManifest(text)) == RunOnManifest(text)
  {
    var lines := ReadLines(text);
    ReadLinesEnded(text);
    assert ModifyInfFixed(lines) == ModifyInf(lines);
    if ModifyInf(lines).Rewritten? {
      var out := ModifyInf(lines).lines;
      ReadLinesSpec(text);
      assert WellSplit(out);
      ReadJoin(out);
      if HasHeader(lines, PackagesHeader) || HasHeader(lines, LibraryClassesHeader) {
        ModifyInfSecondCallSkips(lines);
        assert ModifyInf(ReadLines(Join(out))) == AlreadyDebug;
      } else {
        assert out == lines;
      }
    }
  }

  /** A text that is empty or ends in "\n" reads as lines whose last line
      ends in "\n". */
  lemma ReadLinesEnded(text: string)
    requires |text| == 0 || text[|text| - 1] == '\n'
    ensures var lines := ReadLines(text);
      |lines| == 0 || EndsLine(lines[|lines| - 1])
  {
    var lines := ReadLines(text);
    ReadLinesSpec(text);
    if |lines| > 0 {
      JoinEndsLikeLastLine(lines);
    }
  }


  /** A manifest whose `[LibraryClasses]` block runs to its end, with no
      marked line and no `[Packages]` header: the library line is put after
      its last line. */
  lemma LibraryBlockAtEnd(header: string, last: string)
    requires Strip(header) == LibraryClassesHeader
    requires !IsMarked(last) && Strip(last) != PackagesHeader && last != BlankLine
    ensures ModifyInf([header, last]) == Rewritten([header, last, LibraryLine(Indentation(last))])
  {
    var lines := [header, last];
    var x := LibraryLine(Indentation(last));
    assert !AlreadyModified(lines) by {
      assert !IsMarked(header);
    }
    assert AddPackage(lines) == Some(lines) by {
      assert !HasHeader(lines, PackagesHeader);
    }
    assert AddLibrary(lines) == Some(InsertLine(lines, 2, x)) by {
      assert FirstHeader(lines, LibraryClassesHeader, 0);
      assert FindBlank(lines, 1) == 2;
    }
    InsertSplit(lines, 2, x);
    assert InsertLine(lines, 2, x) == [header, last, x];
  }

  lemma JoinTwo(a: string, b: string)
    ensures Join([a, b]) == a + b
  {
    assert [a, b][1..] == [b];
    assert Join([b]) == b + Join([]);
  }

  lemma JoinThree(a: string, b: string, c: string)
    ensures Join([a, b, c]) == a + b + c
  {
    assert [a, b, c][1..] == [b, c];
    JoinTwo(b, c);
  }

  /** A line without "\n" followed by a whole line reads as one line. */
  lemma FuseLines(last: string, added: string)
    requires IsLine(last) && !EndsLine(last) && IsLine(added)
    ensures IsLine(last + added)
    ensures EndsLine(added) ==> EndsLine(last + added)
  {
    var fused := last + added;
    assert forall i :: 0 <= i < |last| ==> fused[i] == last[i];
    assert forall i :: |last| <= i < |fused| ==> fused[i] == added[i - |last|];
  }

  /** Run over a manifest of two lines, a `[LibraryClasses]` header and one
      more line, the file gains the library line right after that line's
      text, whether or not the line ends in "\n". */
  lemma RunAppendsLibraryLine(header: string, last: string)
    requires IsLine(header) && EndsLine(header) && IsLine(last)
    requires Strip(header) == LibraryClassesHeader
    requires !IsMarked(last) && Strip(last) != PackagesHeader && last != BlankLine
    ensures RunOnManifest(header + last) == header + (last + LibraryLine(Indentation(last)))
  {
    var x := LibraryLine(Indentation(last));
    ReadTwoLines(header, last);
    LibraryBlockAtEnd(header, last);
    JoinThree(header, last, x);
    AppendAssoc(header, last, x);
  }

  /** Two lines, the first ended by "\n", read back as they were written. */
  lemma ReadTwoLines(header: string, last: string)
    requires IsLine(header) && EndsLine(header) && IsLine(last)
    ensures ReadLines(header + last) == [header, last]
  {
    assert WellSplit([header, last]);
    JoinTwo(header, last);
    ReadJoin([header, last]);
  }

  /** A manifest of two lines whose last line, a library line, lacks "\n". */
  const ExampleHeader := "[LibraryClasses]\n"
  const ExampleLast := "  SomeLib"

  /** On `"[LibraryClasses]\n  SomeLib"` the first run writes
      `"[LibraryClasses]\n  SomeLib  MemDebugLib\n"`; the second run reads
      the fused line, finds no marked line and appends `"  MemDebugLib\n"`
      once more. */
  lemma SecondRunInsertsAgain()
    ensures var fused := ExampleLast + LibraryLine("  ");
      && RunOnManifest(ExampleHeader + ExampleLast) == ExampleHeader + fused
      && RunOnManifest(ExampleHeader + fused) == ExampleHeader + (fused + LibraryLine("  "))
  {
    var fused := ExampleLast + LibraryLine("  ");
    HeaderFacts(ExampleHeader);
    LastFacts(ExampleLast);
    FusedFacts(ExampleLast);
    SecondRunAppendsAgain(ExampleHeader, ExampleLast, fused);
  }

  /** A `[LibraryClasses]` block ends the file on a line without "\n": the
      first run writes the library line onto the end of that line, and when
      the fused line is not itself marked the second run appends the library
      line once more. */
  lemma SecondRunAppendsAgain(header: string, last: string, fused: string)
    requires IsLine(header) && EndsLine(header) && Strip(header) == LibraryClassesHeader
    requires IsLine(last) && !EndsLine(last)
    requires !IsMarked(last) && Strip(last) != PackagesHeader && last != BlankLine
    requires fused == last + LibraryLine(Indentation(last))
    requires !IsMarked(fused) && Strip(fused) != PackagesHeader
    ensures RunOnManifest(header + last) == header + fused
    ensures RunOnManifest(header + fused) == header + (fused + LibraryLine(Indentation(fused)))
  {
    var added := LibraryLine(Indentation(last));
    RunAppendsLibraryLine(header, last);
    AddedLinesAreLines(Indentation(last));
    FuseLines(last, added);
    assert |fused| > 1;
    RunAppendsLibraryLine(header, fused);
  }

  lemma HeaderFacts(header: string)
    requires header == "[LibraryClasses]\n"
    ensures IsLine(header) && EndsLine(header) && Strip(header) == LibraryClassesHeader
  {
    StripPadded("", "[LibraryClasses]", "\n");
    assert "" + "[LibraryClasses]" + "\n" == header;
  }

  lemma LastFacts(last: string)
    requires last == "  SomeLib"
    ensures IsLine(last) && !EndsLine(last) && last != BlankLine
    ensures Strip(last) == "SomeLib" && !IsMarked(last) && Strip(last) != PackagesHeader
    ensures Indentation(last) == "  "
  {
    StripPadded("  ", "SomeLib", "");
    assert "  " + "SomeLib" + "" == last;
    assert last[2] == 'S';
  }

  /** The fused line strips to a text that is neither marker nor header,
      and keeps the indentation of the line it extends. */
  lemma FusedFacts(last: string)
    requires last == "  SomeLib"
    ensures var fused := last + LibraryLine("  ");
      !IsMarked(fused) && Strip(fused) != PackagesHeader && Indentation(fused) == "  "
  {
    var fused := last + LibraryLine("  ");
    var w := "SomeLib" + "  " + LibraryEntry;
    assert fused == "  " + w + "\n";
    assert w[0] == 'S' && w[|w| - 1] == 'b';
    StripPadded("  ", w, "\n");
    assert |w| == 20;
    assert fused[0] == ' ' && fused[1] == ' ' && fused[2] == 'S';
  }
}

=== FILE: names.dfy ===
/** Locating the files to rewrite. The directory walks themselves are not
    modelled: a walk is given as the sequence of files it visits, in the
    order it visits them, each with its base name, its path and its text.
    Line numbers refer to `ChangeToDebug_Controller.py`. */
module Names {
  import opened Strings

  datatype WalkEntry = WalkEntry(name: string, path: string, contents: string)

  /** Line 93: a visited file is a target when its name ends in `.c` and
      equals, character for character, a name the user entered. */
  predicate IsTargetSource(fileName: string, entered: string)
  {
    EndsWith(fileName, ".c") && fileName == entered
  }

  /** A name entered without the `.c` extension is never found; for a name
      with it, the extension test is redundant and matching is equality. */
  lemma EnteredNameMustEndInC(fileName: string, entered: string)
    ensures !EndsWith(entered, ".c") ==> !IsTargetSource(fileName, entered)
    ensures EndsWith(entered, ".c") ==> (IsTargetSource(fileName, entered) <==> fileName == entered)
  {
  }

  /** Lines 120-121: the text looked for in the manifests is the entered name
      cut at its first underscore, or the whole name (extension included)
      when it has none. */
  function SearchToken(name: string): (t: string)
    ensures t <= name
    ensures '_' !in t
    ensures '_' in name ==> |t| < |name| && name[|t|] == '_'
    ensures '_' !in name ==> t == name
  {
    if |name| == 0 || name[0] == '_' then []
    else [name[0]] + SearchToken(name[1..])
  }

  /** Cutting an already cut name changes nothing. */
  lemma SearchTokenIdempotent(name: string)
    ensures SearchToken(SearchToken(name)) == SearchToken(name)
  {
  }

  /** Lines 124-129: a visited file is the manifest sought when it has the
      wanted extension and its text contains the search token anywhere. */
  predicate Declares(e: WalkEntry, extension: string, entered: string)
  {
    EndsWith(e.name, extension) && Contains(e.contents, SearchToken(entered))
  }

  /** `walk[k]` declares the name and no file visited before it does. */
  predicate FirstDeclaring(walk: seq<WalkEntry>, k: int, extension: string, entered: string)
  {
    && 0 <= k < |walk|
    && Declares(walk[k], extension, entered)
    && forall j :: 0 <= j < k ==> !Declares(walk[j], extension, entered)
  }

  /** When the walk's first file does not declare the name, searching the
      rest of the walk is searching the whole walk. */
  lemma DeclaringInTail(walk: seq<WalkEntry>, extension: string, entered: string, r: Option<string>)
    requires |walk| > 0 && !Declares(walk[0], extension, entered)
    ensures (exists k :: 0 <= k < |walk| && Declares(walk[k], extension, entered))
        <==> (exists k :: 0 <= k < |walk[1..]| && Declares(walk[1..][k], extension, entered))
    ensures r.Some? && (exists k :: FirstDeclaring(walk[1..], k, extension, entered) && r.value == walk[1..][k].path)
        ==> exists k :: FirstDeclaring(walk, k, extension, entered) && r.value == walk[k].path
  {
    assert forall k :: 1 <= k < |walk| ==> walk[k] == walk[1..][k - 1];
    if r.Some? && exists k :: FirstDeclaring(walk[1..], k, extension, entered) && r.value == walk[1..][k].path {
      var k :| FirstDeclaring(walk[1..], k, extension, entered) && r.value == walk[1..][k].path;
      assert FirstDeclaring(walk, k + 1, extension, entered);
    }
  }

  /** Lines 122-134: the path of the first file of the walk that declares
      the entered name, if any. */
  function FindManifest(walk: seq<WalkEntry>, extension: string, entered: string): (r: Option<string>)
    ensures r.Some? <==> exists k :: 0 <= k < |walk| && Declares(walk[k], extension, entered)
    ensures r.Some? ==>
      exists k :: FirstDeclaring(walk, k, extension, entered) && r.value == walk[k].path
    decreases |walk|
  {
    if |walk| == 0 then None
    else if EndsWith(walk[0].name, extension)
         && Find(walk[0].contents, SearchToken(entered)).Some? then Some(walk[0].path)
    else
      var r := FindManifest(walk[1..], extension, entered);
      DeclaringInTail(walk, extension, entered, r);
      r
  }
}

=== FILE: replace.dfy ===
/** Python's `str.replace(old, new)` with no count: the string is scanned from
    the left, every occurrence of the pattern that starts at the scan position
    is replaced and skipped over, so replaced occurrences never overlap. An
    empty pattern matches before every character and at the end. It is
    used at lines 63, 77 and 112 of `ChangeToDebug_Controller.py`. */
module Replace {
  import opened Strings

  function ReplaceAll(s: string, pat: string, rep: string): string
    decreases |s|
  {
    if |pat| == 0 then
      if |s| == 0 then rep else rep + [s[0]] + ReplaceAll(s[1..], pat, rep)
    else if pat <= s then rep + ReplaceAll(s[|pat|..], pat, rep)
    else if |s| == 0 then []
    else [s[0]] + ReplaceAll(s[1..], pat, rep)
  }

  /** `rep` may stand where `p` was removed without a new occurrence of `p`
      appearing across its edges: `rep` starts with a character found
      nowhere in `p` but at its head, `p` starts with a character found
      nowhere in `rep` but at its head, and neither is a prefix of the other. */
  predicate CannotRecreate(p: string, rep: string)
  {
    && |p| > 0 && |rep| > 0
    && rep[0] !in p[1..]
    && p[0] !in rep[1..]
    && !(rep <= p) && !(p <= rep)
  }

  lemma OccursInTail(s: string, pat: string, k: nat, i: int)
    requires k <= |s|
    requires OccursAt(s[k..], pat, i)
    ensures OccursAt(s, pat, i + k)
  {
    assert s[k..][i..] == s[i + k..];
  }

  lemma PrefixCons(c: char, a: string, b: string)
    ensures a <= [c] + b <==> |a| == 0 || (a[0] == c && a[1..] <= b)
  {
    if |a| > 0 && a[0] == c && a[1..] <= b {
      assert a == [c] + a[1..];
    }
  }

  lemma OccursShift(s: string, pat: string, i: nat)
    requires |s| > 0
    ensures OccursAt(s[1..], pat, i) <==> OccursAt(s, pat, i + 1)
  {
    if i <= |s| - 1 {
      assert s[1..][i..] == s[i + 1..];
    }
  }

  /** The length moves in the direction of `|rep| - |pat|`. */
  lemma {:induction false} ReplaceLength(s: string, pat: string, rep: string)
    ensures |rep| >= |pat| ==> |ReplaceAll(s, pat, rep)| >= |s|
    ensures |rep| <= |pat| ==> |ReplaceAll(s, pat, rep)| <= |s|
    decreases |s|
  {
    if |pat| == 0 {
      if |s| > 0 {
        ReplaceLength(s[1..], pat, rep);
      }
    } else if pat <= s {
      ReplaceLength(s[|pat|..], pat, rep);
    } else if |s| > 0 {
      ReplaceLength(s[1..], pat, rep);
    }
  }

  /** Without an occurrence of the pattern the string comes back unchanged. */
  lemma {:induction false} ReplaceAbsent(s: string, pat: string, rep: string)
    requires !Contains(s, pat)
    ensures ReplaceAll(s, pat, rep) == s
    decreases |s|
  {
    assert !OccursAt(s, pat, 0);
    if |s| > 0 {
      assert !Contains(s[1..], pat) by {
        forall i | 0 <= i <= |s[1..]| ensures !OccursAt(s[1..], pat, i) {
          if OccursAt(s[1..], pat, i) {
            OccursInTail(s, pat, 1, i);
          }
        }
      }
      ReplaceAbsent(s[1..], pat, rep);
      assert s == [s[0]] + s[1..];
    }
  }

  /** With an occurrence and a replacement different from the pattern the
      string does change. */
  lemma {:induction false} ReplacePresent(s: string, pat: string, rep: string)
    requires Contains(s, pat) && pat != rep
    ensures ReplaceAll(s, pat, rep) != s
    decreases |s|
  {
    var r := ReplaceAll(s, pat, rep);
    if |pat| == 0 {
      if |s| > 0 {
        ReplaceLength(s[1..], pat, rep);
        assert |r| > |s|;
      }
    } else if pat <= s {
      var t := s[|pat|..];
      ReplaceLength(t, pat, rep);
      if |rep| == |pat| {
        assert r[..|rep|] == rep;
        assert s[..|pat|] == pat;
      }
    } else {
      var i :| 0 <= i <= |s| && OccursAt(s, pat, i);
      assert i != 0;
      assert OccursAt(s[1..], pat, i - 1) by {
        assert s[1..][i - 1..] == s[i..];
      }
      ReplacePresent(s[1..], pat, rep);
      assert r == [s[0]] + ReplaceAll(s[1..], pat, rep);
      assert r[1..] == ReplaceAll(s[1..], pat, rep);
    }
  }

  /** The rewrite is the identity exactly when there is nothing to rewrite. */
  lemma ReplaceUnchangedIff(s: string, pat: string, rep: string)
    requires pat != rep
    ensures ReplaceAll(s, pat, rep) == s <==> !Contains(s, pat)
  {
    if Contains(s, pat) {
      ReplacePresent(s, pat, rep);
    } else {
      ReplaceAbsent(s, pat, rep);
    }
  }

  /** No occurrence of `pat` starts before index `k` of `s`. */
  predicate NoneBefore(s: string, pat: string, k: int)
  {
    forall i :: 0 <= i < k ==> !OccursAt(s, pat, i)
  }

  /** One step of the scan that copies a character. */
  lemma ReplaceKeepsHead(s: string, pat: string, rep: string)
    requires |pat| > 0 && |s| > 0 && NoneBefore(s, pat, 1)
    ensures ReplaceAll(s, pat, rep) == [s[0]] + ReplaceAll(s[1..], pat, rep)
  {
    assert s[0..] == s;
    assert !OccursAt(s, pat, 0);
  }

  lemma NoneBeforeTail(a: string, b: string, pat: string)
    requires |a| > 0 && NoneBefore(a + b, pat, |a|)
    ensures NoneBefore(a[1..] + b, pat, |a| - 1)
  {
    var s := a + b;
    assert s[1..] == a[1..] + b;
    forall i | 0 <= i < |a| - 1 ensures !OccursAt(a[1..] + b, pat, i) {
      OccursShift(s, pat, i);
    }
  }

  /** Before the first occurrence the text is copied unchanged. */
  lemma {:induction false} ReplaceCopiesPrefix(a: string, b: string, pat: string, rep: string)
    requires |pat| > 0 && NoneBefore(a + b, pat, |a|)
    ensures ReplaceAll(a + b, pat, rep) == a + ReplaceAll(b, pat, rep)
    decreases |a|
  {
    if |a| > 0 {
      var y := ReplaceAll(b, pat, rep);
      ReplaceKeepsHead(a + b, pat, rep);
      NoneBeforeTail(a, b, pat);
      ReplaceCopiesPrefix(a[1..], b, pat, rep);
      calc {
        ReplaceAll(a + b, pat, rep);
        [a[0]] + ReplaceAll((a + b)[1..], pat, rep);
        { TailAppend(a, b); }
        [a[0]] + ReplaceAll(a[1..] + b, pat, rep);
        [a[0]] + (a[1..] + y);
        { ConsAppend(a, y); }
        a + y;
      }
    } else {
      assert a + b == b;
    }
  }

  /** One step of the scan that replaces an occurrence. */
  lemma ReplaceAtHead(t: string, pat: string, rep: string)
    requires |pat| > 0 && pat <= t
    ensures ReplaceAll(t, pat, rep) == rep + ReplaceAll(t[|pat|..], pat, rep)
  {
  }

  /** Leftmost semantics: the first occurrence is the one replaced, and the
      scan resumes right after it. */
  lemma ReplaceFirstOccurrence(s: string, pat: string, rep: string, p: nat)
    requires |pat| > 0 && OccursAt(s, pat, p) && NoneBefore(s, pat, p)
    ensures ReplaceAll(s, pat, rep)
         == s[..p] + rep + ReplaceAll(s[p + |pat|..], pat, rep)
  {
    var t := s[p..];
    SplitJoin(s, p);
    ReplaceCopiesPrefix(s[..p], t, pat, rep);
    ReplaceAtHead(t, pat, rep);
    DropDrop(s, p, |pat|);
    AppendAssoc(s[..p], rep, ReplaceAll(s[p + |pat|..], pat, rep));
  }

  lemma MiddleOccurs(a: string, b: string, c: string)
    ensures OccursAt(a + b + c, b, |a|)
  {
    assert (a + b + c)[|a|..] == b + c;
  }

  /** Replacing an occurrence leaves the replacement in its place. */
  lemma ReplaceWritesReplacement(s: string, pat: string, rep: string)
    requires |pat| > 0 && Contains(s, pat)
    ensures OccursAt(ReplaceAll(s, pat, rep), rep, Find(s, pat).value)
  {
    var p := Find(s, pat).value;
    ReplaceFirstOccurrence(s, pat, rep, p);
    MiddleOccurs(s[..p], rep, ReplaceAll(s[p + |pat|..], pat, rep));
  }

  /** A string that does not start with `u` cannot be made to start with it
      when `u` lacks the first character of `rep`: the scan copies characters
      one by one until it writes the head of `rep`. */
  lemma {:induction false} PrefixSurvives(s: string, pat: string, rep: string, u: string)
    requires |rep| > 0 && rep[0] !in u
    ensures u <= ReplaceAll(s, pat, rep) ==> u <= s
    decreases |s|
  {
    if |u| > 0 {
      assert u[0] in u;
      if |pat| > 0 && !(pat <= s) && |s| > 0 {
        var x := ReplaceAll(s[1..], pat, rep);
        assert ReplaceAll(s, pat, rep) == [s[0]] + x;
        PrefixCons(s[0], u, x);
        PrefixCons(s[0], u, s[1..]);
        assert [s[0]] + s[1..] == s;
        assert rep[0] !in u[1..] by {
          assert forall c :: c in u[1..] ==> c in u;
        }
        PrefixSurvives(s[1..], pat, rep, u[1..]);
      }
    }
  }

  lemma NotAtSeam(rep: string, x: string, p: string, q: int)
    requires CannotRecreate(p, rep)
    requires 0 <= q < |rep|
    ensures !OccursAt(rep + x, p, q)
  {
    if q > 0 {
      assert rep[q] == rep[1..][q - 1];
    } else if |p| <= |rep| {
      assert (rep + x)[..|p|] == rep[..|p|];
    } else {
      assert p <= rep + x ==> rep <= p by {
        assert (rep + x)[..|rep|] == rep;
      }
    }
  }

  /** A replacement followed by text free of `p` is free of `p`, when the
      replacement cannot recreate `p`. */
  lemma NoneAfterReplacement(rep: string, x: string, p: string)
    requires CannotRecreate(p, rep) && !Contains(x, p)
    ensures !Contains(rep + x, p)
  {
    forall q | 0 <= q <= |rep + x| ensures !OccursAt(rep + x, p, q) {
      if q < |rep| {
        NotAtSeam(rep, x, p, q);
      } else {
        assert (rep + x)[q..] == x[q - |rep|..];
        assert !OccursAt(x, p, q - |rep|);
      }
    }
  }

  /** One character in front of a text free of `p` makes a text free of
      `p`, unless `p` now starts it. */
  lemma NoneAfterCons(c: char, x: string, p: string)
    requires !Contains(x, p) && !(p <= [c] + x)
    ensures !Contains([c] + x, p)
  {
    forall q | 0 <= q <= |[c] + x| ensures !OccursAt([c] + x, p, q) {
      if q > 0 {
        assert ([c] + x)[q..] == x[q - 1..];
        assert !OccursAt(x, p, q - 1);
      }
    }
  }

  /** A copied character followed by a `p`-free rewrite of the rest is free
      of `p`, when `p` does not start the text and the replacement cannot
      recreate `p`. */
  lemma NoneAfterCopy(s: string, pat: string, rep: string, p: string)
    requires |s| > 0 && !(p <= s)
    requires CannotRecreate(p, rep)
    requires !Contains(ReplaceAll(s[1..], pat, rep), p)
    ensures !Contains([s[0]] + ReplaceAll(s[1..], pat, rep), p)
  {
    var t := s[1..];
    var x := ReplaceAll(t, pat, rep);
    assert !(p <= [s[0]] + x) by {
      PrefixCons(s[0], p, x);
      PrefixCons(s[0], p, t);
      assert [s[0]] + t == s;
      PrefixSurvives(t, pat, rep, p[1..]);
    }
    NoneAfterCons(s[0], x, p);
  }

  /** The replacement leaves no occurrence of `p` behind: neither an old one,
      when `p` is the pattern itself or was absent to begin with, nor a new
      one formed across the edges of an inserted `rep`. */
  lemma {:induction false} ReplaceLeavesNone(s: string, pat: string, rep: string, p: string)
    requires |pat| > 0
    requires CannotRecreate(p, rep)
    requires p == pat || !Contains(s, p)
    ensures !Contains(ReplaceAll(s, pat, rep), p)
    decreases |s|
  {
    var r := ReplaceAll(s, pat, rep);
    if pat <= s {
      var t := s[|pat|..];
      assert p == pat || !Contains(t, p) by {
        if p != pat && Contains(t, p) {
          var i :| 0 <= i <= |t| && OccursAt(t, p, i);
          OccursInTail(s, p, |pat|, i);
        }
      }
      ReplaceLeavesNone(t, pat, rep, p);
      NoneAfterReplacement(rep, ReplaceAll(t, pat, rep), p);
    } else if |s| > 0 {
      var t := s[1..];
      assert p == pat || !Contains(t, p) by {
        if p != pat && Contains(t, p) {
          var i :| 0 <= i <= |t| && OccursAt(t, p, i);
          OccursInTail(s, p, 1, i);
        }
      }
      ReplaceLeavesNone(t, pat, rep, p);
      assert s[0..] == s;
      assert p != pat ==> !OccursAt(s, p, 0);
      NoneAfterCopy(s, pat, rep, p);
      assert r == [s[0]] + ReplaceAll(t, pat, rep);
    } else {
      assert r == [];
      assert !OccursAt(r, p, 0);
    }
  }
}

=== FILE: rewrites.dfy ===
/** The three whole-file rewrites of the debug switch, each one a literal
    `str.replace` over the full text of a file: the memory-debug PCD flag in
    `PlatformPcdConfig.dsc`, the legacy-support call in
    `DxeMemDebugAcpiArea.c`, and the message severities of a driver's `.c`
    file. Reading and writing the files is not modelled: each rewrite maps
    the old contents to the new ones. Line numbers refer to
    `ChangeToDebug_Controller.py`. */
module Rewrites {
  import opened Strings
  import opened Replace

  /** The PCD line looked for, padding included, and what it becomes: the
      name, fourteen spaces of alignment, then the value. */
  const PcdName := "PcdHpMemoryDebugEnable"
  const PcdPadding := "              "
  const PcdOff := PcdName + PcdPadding + "|FALSE"
  const PcdOn := PcdName + PcdPadding + "|TRUE"

  const LegacyCall := "IsLegacySupported()"
  const LegacyValue := "0"

  const DebugWarn := "DEBUG_WARN"
  const DebugInfo := "DEBUG_INFO"
  const DebugError := "DEBUG_ERROR"

  lemma PcdOnCannotRecreateOff()
    ensures CannotRecreate(PcdOff, PcdOn)
  {
    assert !(PcdOn <= PcdOff) && !(PcdOff <= PcdOn) by {
      assert PcdOn[37] != PcdOff[37];
    }
    assert PcdOn[0] !in PcdOff[1..] by {
      assert PcdOff[1..] == PcdName[1..] + PcdPadding + "|FALSE";
      assert 'P' !in PcdName[1..];
    }
    assert PcdOff[0] !in PcdOn[1..] by {
      assert PcdOn[1..] == PcdName[1..] + PcdPadding + "|TRUE";
      assert 'P' !in PcdName[1..];
    }
  }

  lemma LegacyValueCannotRecreateCall()
    ensures CannotRecreate(LegacyCall, LegacyValue)
  {
  }

  lemma ErrorCannotRecreateWarnOrInfo()
    ensures CannotRecreate(DebugWarn, DebugError)
    ensures CannotRecreate(DebugInfo, DebugError)
  {
    assert DebugError[6] != DebugWarn[6];
    assert DebugError[6] != DebugInfo[6];
  }

  /** Line 63: turn the memory-debug flag on. Without the exact line, padding
      included, the text is left character for character as it was; with it, the flag
      reads TRUE and no FALSE line is left. */
  function EnablePcdFlag(contents: string): (r: string)
    ensures !Contains(contents, PcdOff) ==> r == contents
    ensures Contains(contents, PcdOff) ==>
      r != contents && Contains(r, PcdOn) && !Contains(r, PcdOff)
  {
    PcdOnCannotRecreateOff();
    ReplaceLeavesNone(contents, PcdOff, PcdOn, PcdOff);
    ReplaceUnchangedIff(contents, PcdOff, PcdOn);
    if Contains(contents, PcdOff) then
      ReplaceWritesReplacement(contents, PcdOff, PcdOn);
      ReplaceAll(contents, PcdOff, PcdOn)
    else
      ReplaceAll(contents, PcdOff, PcdOn)
  }

  /** Line 77: every call `IsLegacySupported()` becomes the constant `0`.
      None is left afterwards, and the text changes exactly when there was
      one to replace. */
  function DisableLegacyCheck(contents: string): (r: string)
    ensures !Contains(r, LegacyCall)
    ensures r == contents <==> !Contains(contents, LegacyCall)
  {
    LegacyValueCannotRecreateCall();
    ReplaceLeavesNone(contents, LegacyCall, LegacyValue, LegacyCall);
    ReplaceUnchangedIff(contents, LegacyCall, LegacyValue);
    ReplaceAll(contents, LegacyCall, LegacyValue)
  }

  /** Line 112: the warning pass, then the information pass, both to
      `DEBUG_ERROR`. Neither lower severity survives (the second pass cannot
      bring a `DEBUG_WARN` back), and a text without either is left as it was. */
  function RewriteSeverity(contents: string): (r: string)
    ensures !Contains(r, DebugWarn) && !Contains(r, DebugInfo)
    ensures r == contents <==> !Contains(contents, DebugWarn) && !Contains(contents, DebugInfo)
  {
    var warned := ReplaceAll(contents, DebugWarn, DebugError);
    var r := ReplaceAll(warned, DebugInfo, DebugError);
    ErrorCannotRecreateWarnOrInfo();
    ReplaceLeavesNone(contents, DebugWarn, DebugError, DebugWarn);
    ReplaceLeavesNone(warned, DebugInfo, DebugError, DebugWarn);
    ReplaceLeavesNone(warned, DebugInfo, DebugError, DebugInfo);
    if !Contains(contents, DebugWarn) && !Contains(contents, DebugInfo) then
      ReplaceAbsent(contents, DebugWarn, DebugError);
      ReplaceAbsent(contents, DebugInfo, DebugError);
      r
    else
      r
  }

  /** Running the severity rewrite on its own output changes nothing, so a
      driver file may be switched to debug mode any number of times. */
  lemma RewriteSeverityIdempotent(contents: string)
    ensures RewriteSeverity(RewriteSeverity(contents)) == RewriteSeverity(contents)
  {
  }

  /** The same holds of the other two rewrites. */
  lemma EnablePcdFlagIdempotent(contents: string)
    ensures EnablePcdFlag(EnablePcdFlag(contents)) == EnablePcdFlag(contents)
  {
  }

  lemma DisableLegacyCheckIdempotent(contents: string)
    ensures DisableLegacyCheck(DisableLegacyCheck(contents)) == DisableLegacyCheck(contents)
  {
  }
}

=== FILE: strings.dfy ===
/** Text vocabulary shared by the rewrites: occurrences of a pattern, Python's
    notion of white space, and `str.strip()` without arguments. Strings are
    `seq<char>`; a prefix test is Dafny's `<=` on sequences. Line numbers
    in the comments of this project refer to `ChangeToDebug_Controller.py`. */
module Strings {

  datatype Option<+T> = None | Some(value: T)

  /* Sequence algebra, kept apart from the recursive definitions so that the
     solver proves it without their definitions in view. */

  lemma ConsAppend<T>(a: seq<T>, y: seq<T>)
    requires |a| > 0
    ensures [a[0]] + (a[1..] + y) == a + y
  {
  }

  lemma TailAppend<T>(a: seq<T>, b: seq<T>)
    requires |a| > 0
    ensures (a + b)[1..] == a[1..] + b
  {
  }

  lemma AppendEmpty<T>(a: seq<T>)
    ensures a + [] == a
  {
  }

  lemma DropDrop<T>(a: seq<T>, i: nat, j: nat)
    requires i + j <= |a|
    ensures a[i..][j..] == a[i + j..]
  {
  }

  lemma AppendAssoc<T>(a: seq<T>, b: seq<T>, c: seq<T>)
    ensures a + (b + c) == a + b + c
  {
  }

  lemma SplitJoin<T>(a: seq<T>, k: nat)
    requires k <= |a|
    ensures a[..k] + a[k..] == a
  {
  }

  /** `pat` occurs in `s` starting at index `i`. */
  predicate OccursAt(s: string, pat: string, i: int)
  {
    0 <= i <= |s| && pat <= s[i..]
  }

  /** Python's `pat in s`. */
  predicate Contains(s: string, pat: string)
  {
    exists i :: 0 <= i <= |s| && OccursAt(s, pat, i)
  }

  /** Python's `s.find(pat, start)`, with `None` for -1: the least index at
      or after `start` where `pat` occurs. */
  function FindFrom(s: string, pat: string, start: nat): (r: Option<nat>)
    requires start <= |s|
    ensures r.Some? ==> start <= r.value && OccursAt(s, pat, r.value)
    ensures r.Some? ==> forall i :: start <= i < r.value ==> !OccursAt(s, pat, i)
    ensures r.None? ==> forall i :: start <= i <= |s| ==> !OccursAt(s, pat, i)
    decreases |s| - start
  {
    if pat <= s[start..] then Some(start)
    else if start == |s| then None
    else FindFrom(s, pat, start + 1)
  }

  /** Python's `s.find(pat)`. */
  function Find(s: string, pat: string): (r: Option<nat>)
    ensures r.Some? <==> Contains(s, pat)
    ensures r.Some? ==> OccursAt(s, pat, r.value)
    ensures r.Some? ==> forall i :: 0 <= i < r.value ==> !OccursAt(s, pat, i)
  {
    FindFrom(s, pat, 0)
  }

  predicate EndsWith(s: string, suffix: string)
  {
    |suffix| <= |s| && s[|s| - |suffix|..] == suffix
  }

  /** The characters for which Python's `str.isspace()` holds, which are the
      ones `str.strip()` removes when called without arguments. */
  predicate IsSpace(c: char)
  {
    || ('\t' <= c <= '\r')
    || ('\U{1C}' <= c <= ' ')
    || c == '\U{85}' || c == '\U{A0}' || c == '\U{1680}'
    || ('\U{2000}' <= c <= '\U{200A}')
    || c == '\U{2028}' || c == '\U{2029}' || c == '\U{202F}'
    || c == '\U{205F}' || c == '\U{3000}'
  }

  predicate AllSpace(s: string)
  {
    forall i :: 0 <= i < |s| ==> IsSpace(s[i])
  }

  /** Python's `s.lstrip()`. */
  function TrimStart(s: string): string
  {
    if |s| > 0 && IsSpace(s[0]) then TrimStart(s[1..]) else s
  }

  /** Python's `s.rstrip()`. */
  function TrimEnd(s: string): string
  {
    if |s| > 0 && IsSpace(s[|s| - 1]) then TrimEnd(s[..|s| - 1]) else s
  }

  /** Python's `s.strip()`. */
  function Strip(s: string): string
  {
    TrimEnd(TrimStart(s))
  }

  /** `s` is white space, then `w` starting at index `n`, then white space. */
  predicate StrippedAt(s: string, w: string, n: int)
  {
    && 0 <= n && n + |w| <= |s|
    && s[n..n + |w|] == w
    && AllSpace(s[..n]) && AllSpace(s[n + |w|..])
  }

  lemma AllSpaceCons(c: char, a: string)
    requires IsSpace(c) && AllSpace(a)
    ensures AllSpace([c] + a)
  {
    assert forall i :: 1 <= i < |[c] + a| ==> ([c] + a)[i] == a[i - 1];
  }

  lemma AllSpaceSnoc(a: string, c: char)
    requires AllSpace(a) && IsSpace(c)
    ensures AllSpace(a + [c])
  {
    assert forall i :: 0 <= i < |a| ==> (a + [c])[i] == a[i];
  }

  /** `lstrip` returns a suffix of its argument. */
  lemma {:induction false} TrimStartSuffix(s: string)
    ensures |TrimStart(s)| <= |s| && TrimStart(s) == s[|s| - |TrimStart(s)|..]
    decreases |s|
  {
    if |s| > 0 && IsSpace(s[0]) {
      var t := s[1..];
      assert TrimStart(s) == TrimStart(t);
      TrimStartSuffix(t);
      DropDrop(s, 1, |t| - |TrimStart(t)|);
    } else {
      assert TrimStart(s) == s;
    }
  }

  /** Everything `lstrip` drops is white space. */
  lemma {:induction false} TrimStartDropsSpace(s: string)
    ensures |TrimStart(s)| <= |s|
    ensures AllSpace(s[..|s| - |TrimStart(s)|])
    decreases |s|
  {
    if |s| > 0 && IsSpace(s[0]) {
      var t := s[1..];
      assert TrimStart(s) == TrimStart(t);
      TrimStartDropsSpace(t);
      var n := |s| - |TrimStart(t)|;
      assert s[..n] == [s[0]] + t[..n - 1];
      AllSpaceCons(s[0], t[..n - 1]);
    } else {
      assert TrimStart(s) == s;
      assert s[..0] == [];
    }
  }

  /** What `lstrip` keeps does not start with white space. */
  lemma {:induction false} TrimStartHead(s: string)
    ensures |TrimStart(s)| > 0 ==> !IsSpace(TrimStart(s)[0])
    decreases |s|
  {
    if |s| > 0 && IsSpace(s[0]) {
      assert TrimStart(s) == TrimStart(s[1..]);
      TrimStartHead(s[1..]);
    } else {
      assert TrimStart(s) == s;
    }
  }

  /** `lstrip` keeps the longest suffix that does not start with a space:
      everything it drops is white space. */
  lemma TrimStartSpec(s: string)
    ensures |TrimStart(s)| <= |s| && TrimStart(s) == s[|s| - |TrimStart(s)|..]
    ensures AllSpace(s[..|s| - |TrimStart(s)|])
    ensures |TrimStart(s)| > 0 ==> !IsSpace(TrimStart(s)[0])
  {
    TrimStartSuffix(s);
    TrimStartDropsSpace(s);
    TrimStartHead(s);
  }

  /** `rstrip` keeps the longest prefix that does not end with a space:
      everything it drops is white space. */
  lemma {:induction false} TrimEndSpec(s: string)
    ensures TrimEnd(s) <= s
    ensures AllSpace(s[|TrimEnd(s)|..])
    ensures |TrimEnd(s)| > 0 ==> !IsSpace(TrimEnd(s)[|TrimEnd(s)| - 1])
    decreases |s|
  {
    if |s| > 0 && IsSpace(s[|s| - 1]) {
      var t := s[..|s| - 1];
      var r := TrimEnd(t);
      assert TrimEnd(s) == r;
      TrimEndSpec(t);
      assert r <= s;
      assert s[|r|..] == t[|r|..] + [s[|s| - 1]];
      AllSpaceSnoc(t[|r|..], s[|s| - 1]);
    } else {
      assert TrimEnd(s) == s;
      assert s[|s|..] == [];
    }
  }

  /** Dropping white space from the front of `s` gives `t`, and dropping
      white space from the back of `t` gives `r`: then `r` sits in `s`
      between the two runs of white space. */
  lemma TrimmedBothEnds(s: string, t: string, r: string)
    requires |t| <= |s| && t == s[|s| - |t|..] && AllSpace(s[..|s| - |t|])
    requires r <= t && AllSpace(t[|r|..])
    ensures StrippedAt(s, r, |s| - |t|)
  {
    var n := |s| - |t|;
    assert s[n + |r|..] == t[|r|..];
    assert s[n..n + |r|] == t[..|r|];
  }

  /** The white space `strip` drops sits before and after its result. */
  lemma StripSplits(s: string)
    ensures StrippedAt(s, Strip(s), |s| - |TrimStart(s)|)
  {
    var t := TrimStart(s);
    var r := TrimEnd(t);
    TrimStartSpec(s);
    TrimEndSpec(t);
    TrimmedBothEnds(s, t, r);
  }

  /** What sits between two runs of white space occurs in the string, is
      white space if the whole string is, and leaves only white space behind
      when it is empty. */
  lemma StrippedAtFacts(s: string, w: string, n: int)
    requires StrippedAt(s, w, n)
    ensures OccursAt(s, w, n)
    ensures AllSpace(s) ==> AllSpace(w)
    ensures w == [] ==> AllSpace(s)
  {
    assert forall i :: 0 <= i < |w| ==> w[i] == s[n + i];
    if w == [] {
      forall i | 0 <= i < |s| ensures IsSpace(s[i]) {
        if i < n {
          assert s[i] == s[..n][i];
        } else {
          assert s[i] == s[n..][i - n];
        }
      }
    }
  }

  /** `strip` removes white space from the two ends and nothing else: the
      line is some white space, the result, then some white space. The
      result has no white space at either end, and it is empty exactly for
      all-space input. */
  lemma StripSpec(s: string)
    ensures Contains(s, Strip(s))
    ensures exists n :: StrippedAt(s, Strip(s), n)
    ensures |Strip(s)| > 0 ==> !IsSpace(Strip(s)[0]) && !IsSpace(Strip(s)[|Strip(s)| - 1])
    ensures AllSpace(s) <==> Strip(s) == []
  {
    var t := TrimStart(s);
    var r := TrimEnd(t);
    TrimStartSpec(s);
    TrimEndSpec(t);
    StripSplits(s);
    StrippedAtFacts(s, r, |s| - |t|);
    if |r| > 0 {
      assert r[0] == t[0];
    }
  }

  lemma {:induction false} TrimStartSpaces(a: string, t: string)
    requires AllSpace(a)
    ensures TrimStart(a + t) == TrimStart(t)
    decreases |a|
  {
    if |a| > 0 {
      assert (a + t)[1..] == a[1..] + t;
      TrimStartSpaces(a[1..], t);
    } else {
      assert a + t == t;
    }
  }

  lemma {:induction false} TrimEndSpaces(t: string, b: string)
    requires AllSpace(b)
    ensures TrimEnd(t + b) == TrimEnd(t)
    decreases |b|
  {
    if |b| > 0 {
      assert (t + b)[..|t + b| - 1] == t + b[..|b| - 1];
      TrimEndSpaces(t, b[..|b| - 1]);
    } else {
      assert t + b == t;
    }
  }

  /** `lstrip` of a string that is not all white space is unaffected by
      what follows it. */
  lemma {:induction false} TrimStartAppend(a: string, b: string)
    requires !AllSpace(a)
    ensures TrimStart(a + b) == TrimStart(a) + b
    decreases |a|
  {
    assert (a + b)[0] == a[0];
    if IsSpace(a[0]) {
      assert !AllSpace(a[1..]) by {
        var i :| 0 <= i < |a| && !IsSpace(a[i]);
        assert a[1..][i - 1] == a[i];
      }
      TailAppend(a, b);
      TrimStartAppend(a[1..], b);
    }
  }

  /** A line and the same line ended with "\n" strip to the same text. */
  lemma StripIgnoresNewline(a: string)
    ensures Strip(a + "\n") == Strip(a)
  {
    assert AllSpace("\n");
    if AllSpace(a) {
      TrimStartSpaces(a, "\n");
      assert TrimStart("\n") == TrimStart("");
      StripSpec(a);
    } else {
      TrimStartAppend(a, "\n");
      TrimEndSpaces(TrimStart(a), "\n");
    }
  }

  /** A word padded on both sides with white space strips back to the word;
      this is why every line the manifest rewrite inserts is recognised by
      its own "already modified" test. */
  lemma StripPadded(a: string, w: string, b: string)
    requires AllSpace(a) && AllSpace(b)
    requires |w| > 0 && !IsSpace(w[0]) && !IsSpace(w[|w| - 1])
    ensures Strip(a + w + b) == w
  {
    assert a + w + b == a + (w + b);
    TrimStartSpaces(a, w + b);
    assert TrimStart(w + b) == w + b by {
      assert (w + b)[0] == w[0];
    }
    TrimEndSpaces(w, b);
  }
}
